=== FILE: README.md ===
# Trello Dashboard: startup authorisation and column persistence

A Dafny model of the state machine inside `TrelloDashboardApp` (`scripts/main.js`),
a browser script that signs a user in to Trello and keeps a list of saved
searches ("columns") in `localStorage`. The browser is made explicit: one
immutable `App` record holds `location.hash`, `location.href`, `localStorage`
(a `map<string, string>`), the instance token `this.token`, the class-level
`TrelloDashboardApp.TOKEN`, the API key, `TrelloDashboardApp.DATA.columns`, the
columns built on the page, the questions asked through `prompt`, whether the
click handler is attached, and the URL assigned to `window.location`. Every
operation is a pure transition on that record.

Three parts are modelled:

- **Startup authorisation** (`Auth`): `authorized` takes a non-empty hash
  first, then a stored `trello_token`, and otherwise records the redirect to
  `https://trello.com/1/authorize?...` and answers false. `parseHashToken`
  takes everything after the first `=` (the whole hash, `#` included, when
  there is none). Its guard `token !== '' || token !== undefined` is always
  true, so the error branch is proved unreachable and an empty token is saved.
- **Column list** (`Dashboard`): `addColumn` fills falsy fields from `prompt`,
  builds the column, appends it only when `saveNew` is set, and calls
  `saveData` in both cases. `loadData` replaces `DATA` with the parsed record
  and rebuilds each column with `saveNew = false`. Stored text that is not
  JSON makes `JSON.parse`, and with it the constructor, throw; the state
  reached by then (hash cleared, token stored, click handler attached) is kept
  with the error. The model reads every text outside the shape the dashboard
  writes as such a syntax error (see Left out). The persisted text is the
  canonical JSON of `{columns: [{name, query}, ...]}` (`Json`); parsing and
  serialising are proved inverse in both directions.
- **API URL builder** (`Api`): `API(method)` yields
  `https://api.trello.com/1/<method>?key=<API_KEY>&token=<TOKEN>` for a
  non-empty method and nothing otherwise.

`prompt` is an oracle `nat -> JsString` giving the answer to the n-th question
(null for a cancelled dialog). `encodeURIComponent` is a function parameter.

The model follows the code as written:
`saveData` runs after every `addColumn`, not only when `saveNew` holds (line 80);
a stored record whose text is `null` is treated like a missing one
(`JSON.parse` returns null for both, line 84-85); and rehydration asks the user
again for any stored field that is null or empty (lines 72-73 apply to
rehydrated columns too). Those answers only reach the page, never `DATA` or the store.

## Model

| member | source | states |
|---|---|---|
| Text.IndexOf | scripts/main.js:43 | the result is -1 exactly when the character is absent, otherwise the position of its first occurrence |
| Text.IndexOfAfterPrefix | scripts/main.js:43 | in `p + c + t` with no `c` in `p`, the first `c` is at `|p|` |
| Auth.ExtractToken | scripts/main.js:41-44 | the token is a suffix of the hash; it is the whole hash when there is no `=`, otherwise the text right after the first `=` |
| Auth.ExtractTokenAfterKey | scripts/main.js:43-44 | a hash `prefix=TOKEN` whose prefix has no `=` yields exactly TOKEN |
| Auth.TokenGuardAlwaysHolds | scripts/main.js:46 | the guard on line 46 (either inequality suffices) holds for every string, the empty one included |
| Auth.LoadToken | scripts/main.js:59-64 | answers true exactly when `trello_token` is stored; both token fields become the stored value, or null; nothing else changes |
| Auth.SaveToken | scripts/main.js:54-57 | the store maps `trello_token` to the token and nothing else changes in it; both token fields equal the token; a following `loadToken` answers true and changes nothing |
| Auth.ParseHashToken | scripts/main.js:41-52 | for every hash the hash is cleared and the extracted token (even an empty one) is stored and loaded; the error branch is unreachable |
| Auth.AuthorizeUrl | scripts/main.js:37 | the address is exactly the authorise endpoint, the page address, the read/write never-expiring scope, the encoded app name and the key, in that order with nothing in between |
| Auth.AuthorizeUrlInjective | scripts/main.js:37 | different page addresses give different authorisation addresses, so the return address is recoverable |
| Auth.AuthorizeUser | scripts/main.js:35-39 | the recorded redirect is the authorisation address for the page address, the encoded app name and the key; nothing else changes |
| Auth.Authorized | scripts/main.js:15-33 | true exactly when the hash is non-empty or a token is stored; a hash is parsed and stored; a stored token is loaded with no store write; the instance and class tokens always agree; the false answer sets both tokens to null, records the redirect and changes nothing else |
| Auth.HashWinsOverStore | scripts/main.js:20-23 | with a non-empty hash the answer and the resulting token do not depend on what the store held |
| Auth.SavedTokenAuthorizes | scripts/main.js:24-26 | after a token is saved, `authorized()` without a hash answers true with that token and writes nothing |
| Auth.HashThenReload | scripts/main.js:20-26 | after authorising from a hash, authorising again changes nothing: the hash is gone and the stored token is found |
| Auth.ExampleHashToken | scripts/main.js:41-48 | the hash `#token=abc123` authorises and stores `abc123` under `trello_token` |
| Auth.EmptyTokenStored | scripts/main.js:46-48 | a hash ending in `=` still authorises and stores the empty token |
| Json.StringifyRoundTrip | scripts/main.js:84-95 | parsing the text written for a column list gives back that list |
| Json.ParseCanonical | scripts/main.js:84 | a text the parser reads as a dashboard record is exactly the serialisation of the list it yields |
| Json.ParseIffStringify | scripts/main.js:84-95 | parsing a text yields a list exactly when the text is that list's serialisation |
| Json.ParseNull | scripts/main.js:84-85 | a stored text is read as `null` exactly when it is the text `null`; every other text is a dashboard record or a syntax error |
| Json.StringifyInjective | scripts/main.js:95 | different column lists are saved as different texts |
| Dashboard.FillIn | scripts/main.js:72-73 | a truthy field is kept; a falsy name takes the next answer, a falsy query the answer after the name's; exactly the needed questions are asked, name first |
| Dashboard.Render | scripts/main.js:72-74 | the built column is shown after the earlier ones; it is the filled-in column (truthy fields kept, falsy ones answered by the user), a complete column is shown as is, and the needed questions are recorded |
| Dashboard.SaveData | scripts/main.js:94-96 | the stored record becomes the serialisation of the whole list and parses back to it; other keys and fields are untouched |
| Dashboard.AddColumn | scripts/main.js:71-81 | one column is built on the page; with `saveNew` it is appended after the unchanged earlier columns, without it the list is unchanged; either way the store holds the current list |
| Dashboard.Rehydrate | scripts/main.js:88-91 | re-adding columns with `saveNew = false` keeps the list, leaves the page as rendering the entries in order leaves it, and writes the store only when there is an entry, with the unchanged list |
| Dashboard.RenderAll | scripts/main.js:88-91 | rendering a list adds one page column per entry after the columns already shown |
| Dashboard.RenderAllKeepsFields | scripts/main.js:72-73 | the i-th rebuilt column keeps every truthy field of the i-th stored one |
| Dashboard.RenderAllAsks | scripts/main.js:72-73 | rebuilding asks exactly the questions each entry needs, entry by entry in list order |
| Dashboard.RenderAllComplete | scripts/main.js:72-73 | when every entry has a truthy name and query, the page shows exactly the entries and nothing is asked |
| Dashboard.LoadData | scripts/main.js:83-92 | a missing or `null` record changes nothing; unreadable text throws, with the state unchanged at the throw; otherwise the record replaces the list, the store agrees with it afterwards, the page gains one column per entry, and a record of complete columns is shown as is without questions |
| Dashboard.Construct | scripts/main.js:4-13 | the address, the key and the empty hash are kept on every path; without hash or stored token both tokens become null, the redirect to the authorisation address is recorded, no listener is attached and the columns stay empty; otherwise both token fields hold the token from the hash (stored under `trello_token`) or else the stored one (left as it was), listeners are attached, no redirect happens, and the stored record is loaded: a missing or `null` one leaves the list empty, a readable one becomes the list and is rendered, an unreadable one throws with the token and handler already in place and the record untouched |
| Dashboard.SaveThenLoad | scripts/main.js:83-96 | loading right after saving gives back the saved list and leaves the store as saved |
| Dashboard.LoadPersistedIsStable | scripts/main.js:83-92 | loading from a store that agrees with the list changes neither |
| Dashboard.LoadDataTwice | scripts/main.js:83-92 | a second `loadData` right after a successful one changes neither `DATA` nor the store |
| Dashboard.AddedColumnSurvivesReload | scripts/main.js:71-92 | a column added with `saveNew` is loaded back after the earlier ones |
| Dashboard.ReloadIsStable | scripts/main.js:8-11 | reloading the page without a hash after a successful start gives the same columns and the same store |
| Dashboard.ClickAfterFailedStartRepairs | scripts/main.js:68-95 | after a start that throws because the stored record is not JSON, the handler is attached and the first added column replaces the record with a readable one holding just that column |
| Dashboard.ExampleRehydration | scripts/main.js:83-91 | a stored `{name: "Bugs", query: "label:bug"}` is rebuilt as that one column without asking anything |
| Api.Api | scripts/main.js:106-112 | an address exists exactly when the method is non-empty; it is exactly the base, the method, `?key=` and the key, followed directly by `&token=` and the token |
| Api.ApiMethodRoundTrip | scripts/main.js:106-108 | the method (without `?`) is read back from the address built for it |
| Api.ApiCarriesAuthorizedToken | scripts/main.js:108 | after a successful `authorized()` every address ends with the token from the hash, or else the stored token |
| Api.ApiAfterFailedAuthorization | scripts/main.js:108 | after a failed `authorized()` the address ends with `token=null` |

## Left out

- `Column` and `Card` construction in the DOM, their templates and click handlers (lines 133-229): presentation only; a built column is modelled by its `{name, query}` alone.
- `Column.generateId` (line 144-146): a random display id that is never persisted.
- `loadCards`, `addCards` and `fetch` (lines 170-191): asynchronous network I/O whose failure is only logged.
- `attachEventListeners` (lines 66-69): modelled only as the `listening` flag.
- `removeColumn` (lines 98-100): an empty stub.
- Console logging (lines 9, 29, 50, 110): output only.
- Navigation: assigning `window.location` ends the page; the model records the URL instead.
- `encodeURIComponent`: a function parameter of the model, not implemented.
- JSON: only the text the dashboard itself writes is modelled. Only `"` and `\` are escaped; the escapes `JSON.stringify` uses for control characters and lone surrogates are not. Any other text (whitespace, other key orders, other value types) is a syntax error in the model, while `JSON.parse` may accept it. The DOM fields of a built column, which serialise as `{}`, are not modelled.
- Dashboard.AddColumn: the default argument `{}` has undefined fields; the model uses null for both undefined and null, since both are falsy and are replaced by `prompt` before anything is stored.
- Auth.ParseHashToken: clearing `location.hash` also changes `location.href` in a browser; the model keeps `href` as it was, since `href` is read only by `authorizeUser`, which runs only when the hash is empty.
- Dashboard.ClickAfterFailedStartRepairs: holds for a record that is not JSON. A record that is valid JSON of another shape (`{}`, `5`, `{"columns":"x"}`) is read by the model as a syntax error. In the code, `JSON.parse` accepts it and `DATA` is replaced by it. The TypeError then comes from `forEach` (line 89), and every later click throws at `DATA.columns.push` (line 78) before `saveData`, so the record is never repaired.
- Api.Api: a non-string `method` argument is not modelled; only the empty string stands for a falsy one.

=== FILE: api.dfy ===
/** `TrelloDashboardApp.API(method)`: the REST address for a method, carrying
    the configured key and the class-level token. */
module Api {
  import opened Wrappers
  import opened Text
  import opened AppState
  import opened Auth

  const ApiBase: string := "https://api.trello.com/1/"

  /** How a template literal prints a token variable. */
  function TemplateText(t: TokenSlot): string {
    match t
    case Undefined => "undefined"
    case Null => "null"
    case Str(s) => s
  }

  /** A URL for a non-empty method; nothing (only a logged error) otherwise. The
      URL is the base, method and key followed directly by the token. */
  function Api(app: App, apiMethod: string): (r: Option<string>)
    ensures r.Some? <==> apiMethod != ""
    ensures r.Some? ==> ApiBase + apiMethod + "?key=" + app.apiKey <= r.value
    ensures r.Some? ==> EndsWith(r.value, "&token=" + TemplateText(app.classToken))
    ensures r.Some? ==>
              |r.value| == |ApiBase + apiMethod + "?key=" + app.apiKey| + |"&token=" + TemplateText(app.classToken)|
  {
    if apiMethod != "" then
      var url := ApiBase + apiMethod + "?key=" + app.apiKey + "&token=" + TemplateText(app.classToken);
      assert url == ApiBase + apiMethod + "?key=" + app.apiKey + ("&token=" + TemplateText(app.classToken));
      Some(url)
    else None
  }

  /** Reads the method back out of an API address: the path up to the first `?`. */
  function MethodOf(url: string): Option<string> {
    if ApiBase <= url then
      var path := url[|ApiBase|..];
      var i := IndexOf(path, '?');
      if i < 0 then None else Some(path[..i])
    else None
  }

  /** A method without `?` is recovered from the address built for it. */
  lemma ApiMethodRoundTrip(app: App, apiMethod: string)
    requires apiMethod != "" && '?' !in apiMethod
    ensures MethodOf(Api(app, apiMethod).value) == Some(apiMethod)
  {
    var tail := "key=" + app.apiKey + "&token=" + TemplateText(app.classToken);
    var url := Api(app, apiMethod).value;
    assert url == ApiBase + (apiMethod + "?" + tail);
    assert url[|ApiBase|..] == apiMethod + "?" + tail;
    IndexOfAfterPrefix(apiMethod, '?', tail);
    assert (apiMethod + "?" + tail)[..|apiMethod|] == apiMethod;
  }

  /** Once the page is authorised, every API address carries the token taken
      from the hash, or else the stored one. */
  lemma ApiCarriesAuthorizedToken(app: App, encode: string -> string, apiMethod: string)
    requires Authorized(app, encode).1 && apiMethod != ""
    ensures var a := Authorized(app, encode).0;
            var token := if app.hash != "" then ExtractToken(app.hash) else app.store[TokenKey];
            EndsWith(Api(a, apiMethod).value, "&token=" + token)
  {
  }

  /** Without a token stored or in the hash, the token slot is null and the
      address says so. */
  lemma ApiAfterFailedAuthorization(app: App, encode: string -> string, apiMethod: string)
    requires !Authorized(app, encode).1 && apiMethod != ""
    ensures EndsWith(Api(Authorized(app, encode).0, apiMethod).value, "&token=null")
  {
  }
}

=== FILE: app_state.dfy ===
/** The browser and class-level state `TrelloDashboardApp` reads and writes,
    made explicit as one immutable record. */
module AppState {
  import opened Wrappers
  import opened Columns

  /** A JavaScript variable that holds a token: never assigned, `null`, or a string. */
  datatype TokenSlot = Undefined | Null | Str(value: string)

  /** localStorage key of the bearer token. */
  const TokenKey: string := "trello_token"
  /** localStorage key of the serialised column list. */
  const DataKey: string := "TrelloAppDashboard_DATA"
  /** `this.appName`. */
  const AppName: string := "Trello Dashboard"

  /** What the page shows and asks: the columns constructed on it and the
      questions put to the user with prompt(), each in order. */
  datatype Page = Page(rendered: seq<Column>, prompts: seq<string>)

  datatype App = App(
    hash: string,               // location.hash
    href: string,               // location.href
    store: map<string, string>, // localStorage
    token: TokenSlot,           // this.token
    classToken: TokenSlot,      // TrelloDashboardApp.TOKEN
    apiKey: string,             // TrelloDashboardApp.API_KEY
    columns: seq<Column>,       // TrelloDashboardApp.DATA.columns
    page: Page,                 // the document and the dialogs shown so far
    listening: bool,            // the add-column click handler is attached
    redirect: Option<string>)   // the URL assigned to window.location, if any

  /** The state the page script starts from: the browser's hash, address and
      storage, the configured key, `TOKEN = ''` and `DATA = {columns: []}`. */
  function Initial(hash: string, href: string, store: map<string, string>, apiKey: string): App {
    App(hash, href, store, Undefined, Str(""), apiKey, [], Page([], []), false, None)
  }

  /** `a` and `b` agree on everything the token handling does not touch. */
  predicate SameExceptTokens(a: App, b: App) {
    a.(token := b.token, classToken := b.classToken) == b
  }
}

=== FILE: auth.dfy ===
/** Startup authorisation: `authorized`, `parseHashToken`, `saveToken`,
    `loadToken` and the redirect built by `authorizeUser`. */
module Auth {
  import opened Wrappers
  import opened Text
  import opened AppState

  /** `hash.substr(hash.indexOf('=') + 1)`: everything after the first `=`,
      or the whole hash when it has none (indexOf gives -1, plus one is 0). */
  function ExtractToken(hash: string): (t: string)
    ensures EndsWith(hash, t)
    ensures '=' !in hash ==> t == hash
    ensures '=' in hash ==>
              |t| < |hash| && hash[|hash| - |t| - 1] == '=' && '=' !in hash[..|hash| - |t| - 1]
  {
    var start := IndexOf(hash, '=') + 1;
    hash[start..]
  }

  /** The condition `parseHashToken` tests before saving: `token !== '' || token !== undefined`. */
  predicate TokenGuard(token: TokenSlot) {
    token != Str("") || token != Undefined
  }

  /** `loadToken()`: copies the stored token (or null) into both token fields and
      reports whether one was stored. */
  function LoadToken(app: App): (r: (App, bool))
    ensures r.1 <==> TokenKey in app.store
    ensures r.0.token == r.0.classToken
    ensures r.1 ==> r.0.token == Str(app.store[TokenKey])
    ensures !r.1 ==> r.0.token == Null
    ensures SameExceptTokens(app, r.0)
  {
    if TokenKey in app.store then
      var t := Str(app.store[TokenKey]);
      (app.(token := t, classToken := t), true)
    else
      (app.(token := Null, classToken := Null), false)
  }

  /** `saveToken(token)`: writes the token under `trello_token`, then reloads it. */
  function SaveToken(app: App, token: string): (r: App)
    ensures r.store == app.store[TokenKey := token]
    ensures r.token == Str(token) && r.classToken == Str(token)
    ensures LoadToken(r).1 && LoadToken(r).0 == r
    ensures r.(store := app.store, token := app.token, classToken := app.classToken) == app
  {
    LoadToken(app.(store := app.store[TokenKey := token])).0
  }

  /** `parseHashToken(hash)`. The guard is always true for a string token, so the
      hash is always cleared and whatever was extracted is saved. */
  function ParseHashToken(app: App, hash: string): (r: App)
    ensures r.hash == ""
    ensures r.store == app.store[TokenKey := ExtractToken(hash)]
    ensures r.token == Str(ExtractToken(hash)) && r.classToken == r.token
    ensures r.(hash := app.hash, store := app.store, token := app.token, classToken := app.classToken) == app
  {
    var token := ExtractToken(hash);
    if TokenGuard(Str(token)) then
      SaveToken(app.(hash := ""), token)
    else
      // the error branch only logs; the guard above never fails
      assert false; app
  }

  const AuthorizeEndpoint: string := "https://trello.com/1/authorize?callback_method=fragment&return_url="
  /** The fixed permissions requested: read and write access that never expires. */
  const AuthorizeScope: string := "&scope=read,write&expiration=never"

  /** The address `authorizeUser` sends the browser to: the endpoint, the page
      address to return to, the scope, then the app name and the key, with
      nothing in between. */
  function AuthorizeUrl(href: string, encodedName: string, apiKey: string): (url: string)
    ensures AuthorizeEndpoint + href + AuthorizeScope <= url
    ensures EndsWith(url, "&name=" + encodedName + "&key=" + apiKey)
    ensures |url| == |AuthorizeEndpoint + href + AuthorizeScope| + |"&name=" + encodedName + "&key=" + apiKey|
  {
    var url := AuthorizeEndpoint + href + AuthorizeScope + "&name=" + encodedName + "&key=" + apiKey;
    assert url == (AuthorizeEndpoint + href + AuthorizeScope) + ("&name=" + encodedName + "&key=" + apiKey);
    url
  }

  /** The return address is recoverable: different page addresses give
      different authorisation addresses. */
  lemma AuthorizeUrlInjective(href1: string, href2: string, encodedName: string, apiKey: string)
    requires AuthorizeUrl(href1, encodedName, apiKey) == AuthorizeUrl(href2, encodedName, apiKey)
    ensures href1 == href2
  {
    var url := AuthorizeUrl(href1, encodedName, apiKey);
    assert |href1| == |href2|;
    assert url[|AuthorizeEndpoint|..|AuthorizeEndpoint| + |href1|] == href1 by {
      assert (AuthorizeEndpoint + href1 + AuthorizeScope)[|AuthorizeEndpoint|..|AuthorizeEndpoint| + |href1|] == href1;
    }
    assert url[|AuthorizeEndpoint|..|AuthorizeEndpoint| + |href2|] == href2 by {
      assert (AuthorizeEndpoint + href2 + AuthorizeScope)[|AuthorizeEndpoint|..|AuthorizeEndpoint| + |href2|] == href2;
    }
  }

  /** `authorizeUser()`: records the navigation to the authorisation page.
      `encode` stands for `encodeURIComponent`. */
  function AuthorizeUser(app: App, encode: string -> string): (r: App)
    ensures r.redirect == Some(AuthorizeUrl(app.href, encode(AppName), app.apiKey))
    ensures AuthorizeEndpoint + app.href + AuthorizeScope <= r.redirect.value
    ensures EndsWith(r.redirect.value, "&name=" + encode(AppName) + "&key=" + app.apiKey)
    ensures r.(redirect := app.redirect) == app
  {
    app.(redirect := Some(AuthorizeUrl(app.href, encode(AppName), app.apiKey)))
  }

  /** `authorized()`: a non-empty hash wins, then a stored token, otherwise the
      user is sent away to authorise and the answer is false. */
  function Authorized(app: App, encode: string -> string): (r: (App, bool))
    ensures r.1 <==> app.hash != "" || TokenKey in app.store
    ensures app.hash != "" ==> r.0 == ParseHashToken(app, app.hash)
    ensures app.hash == "" && TokenKey in app.store ==>
              r.0.store == app.store && r.0.token == Str(app.store[TokenKey]) && SameExceptTokens(app, r.0)
    ensures r.1 ==> r.0.redirect == app.redirect
    ensures !r.1 ==>
              r.0 == app.(token := Null, classToken := Null,
                          redirect := Some(AuthorizeUrl(app.href, encode(AppName), app.apiKey)))
    ensures r.0.classToken == r.0.token
    ensures r.0.columns == app.columns && r.0.page == app.page
    ensures r.0.listening == app.listening
  {
    if app.hash != "" then
      (ParseHashToken(app, app.hash), true)
    else
      var (loaded, found) := LoadToken(app);
      if found then (loaded, true)
      else (AuthorizeUser(loaded, encode), false)
  }

  // ------------------------------------------------------------------ lemmas

  /** A hash of the form `prefix=TOKEN` whose prefix has no `=` yields exactly TOKEN. */
  lemma ExtractTokenAfterKey(prefix: string, token: string)
    requires '=' !in prefix
    ensures ExtractToken(prefix + "=" + token) == token
  {
    IndexOfAfterPrefix(prefix, '=', token);
    assert (prefix + "=" + token)[|prefix| + 1..] == token;
  }

  /** The guard of `parseHashToken` holds of every string, including the empty one. */
  lemma TokenGuardAlwaysHolds(token: string)
    ensures TokenGuard(Str(token))
  {
  }

  /** A hash present on load authorises, and the token it carries replaces any
      stored one, whatever the store held before. */
  lemma HashWinsOverStore(app: App, encode: string -> string, other: map<string, string>)
    requires app.hash != ""
    ensures Authorized(app, encode).1 && Authorized(app.(store := other), encode).1
    ensures Authorized(app, encode).0.token == Authorized(app.(store := other), encode).0.token
    ensures Authorized(app.(store := other), encode).0.store[TokenKey] == ExtractToken(app.hash)
  {
  }

  /** After saving a token, a later `authorized()` with no hash finds it and
      writes nothing. */
  lemma SavedTokenAuthorizes(app: App, token: string, encode: string -> string)
    requires app.hash == ""
    ensures var (a, ok) := Authorized(SaveToken(app, token), encode);
            ok && a.token == Str(token) && a.store == SaveToken(app, token).store && a.redirect == app.redirect
  {
  }

  /** Authorising with a hash leaves the page ready to authorise again from storage alone. */
  lemma HashThenReload(app: App, encode: string -> string)
    requires app.hash != ""
    ensures var (a, _) := Authorized(app, encode);
            var (b, ok) := Authorized(a, encode);
            ok && b == a
  {
  }

  /** A typical implicit-grant return hash: `#token=abc123`. */
  lemma ExampleHashToken(app: App, encode: string -> string)
    requires app.hash == "#token=abc123"
    ensures Authorized(app, encode).1
    ensures Authorized(app, encode).0.store[TokenKey] == "abc123"
    ensures Authorized(app, encode).0.token == Str("abc123")
  {
    ExtractTokenAfterKey("#token", "abc123");
    assert "#token" + "=" + "abc123" == "#token=abc123";
  }

  /** A hash whose `=` ends it authorises with an empty token, which is stored. */
  lemma EmptyTokenStored(app: App, encode: string -> string)
    requires app.hash == "#access_token="
    ensures Authorized(app, encode).1
    ensures Authorized(app, encode).0.store[TokenKey] == ""
  {
    ExtractTokenAfterKey("#access_token", "");
    assert "#access_token" + "=" + "" == "#access_token=";
  }
}

=== FILE: columns.dfy ===
/** The column descriptor the dashboard keeps in `TrelloDashboardApp.DATA.columns`. */
module Columns {
  import opened Wrappers

  /** A JavaScript string-or-null: what `prompt` answers (null when cancelled)
      and what a column field holds. */
  type JsString = Option<string>

  /** JavaScript truthiness of a string-or-null: null and '' are falsy. */
  predicate Truthy(v: JsString) {
    v.Some? && v.value != ""
  }

  /** A saved search: a column title and the search query whose cards it shows. */
  datatype Column = Column(name: JsString, query: JsString)

  /** Both fields are truthy, so re-adding this column asks the user nothing. */
  predicate Complete(c: Column) {
    Truthy(c.name) && Truthy(c.query)
  }
}

=== FILE: dashboard.dfy ===
/** The column list: `addColumn`, `saveData`, `loadData`, and the constructor
    that gates them behind `authorized()`. */
module Dashboard {
  import opened Wrappers
  import opened Columns
  import opened Json
  import opened AppState
  import opened Auth

  const NameQuestion: string := "Tell me the name of Column"
  const QueryQuestion: string := "Paste your search query"

  /** The user behind `prompt`: the answer to the n-th question of the session
      (null when the dialog is cancelled). */
  type Oracle = nat -> JsString

  /** The store holds exactly the serialised form of the in-memory list. */
  predicate Persisted(app: App) {
    DataKey in app.store && app.store[DataKey] == Stringify(app.columns)
  }

  /** Everything outside the column list, its storage and the page stays put. */
  predicate SessionUnchanged(a: App, b: App) {
    && a.hash == b.hash && a.href == b.href
    && a.token == b.token && a.classToken == b.classToken
    && a.apiKey == b.apiKey && a.listening == b.listening && a.redirect == b.redirect
  }

  /** `built` has every truthy field of `given`. */
  predicate KeepsTruthy(built: Column, given: Column) {
    && (Truthy(given.name) ==> built.name == given.name)
    && (Truthy(given.query) ==> built.query == given.query)
  }

  /** The questions `addColumn(column)` asks, in order. */
  function Questions(column: Column): seq<string> {
    (if Truthy(column.name) then [] else [NameQuestion])
      + (if Truthy(column.query) then [] else [QueryQuestion])
  }

  /** `value || prompt(question)`. */
  function OrPrompt(page: Page, value: JsString, question: string, oracle: Oracle): (r: (JsString, Page))
    ensures Truthy(value) ==> r.0 == value && r.1 == page
    ensures !Truthy(value) ==> r.0 == oracle(|page.prompts|) && r.1 == page.(prompts := page.prompts + [question])
  {
    if Truthy(value) then (value, page)
    else (oracle(|page.prompts|), page.(prompts := page.prompts + [question]))
  }

  /** The two `||` lines of `addColumn`: the column as it will be built, and the
      page after the questions it needed. */
  function FillIn(page: Page, column: Column, oracle: Oracle): (r: (Column, Page))
    ensures Truthy(column.name) ==> r.0.name == column.name
    ensures !Truthy(column.name) ==> r.0.name == oracle(|page.prompts|)
    ensures Truthy(column.query) ==> r.0.query == column.query
    ensures !Truthy(column.query) ==> r.0.query == oracle(|page.prompts| + |Questions(column)| - 1)
    ensures KeepsTruthy(r.0, column)
    ensures Complete(column) ==> r.0 == column
    ensures r.1 == page.(prompts := page.prompts + Questions(column))
  {
    var (name, p1) := OrPrompt(page, column.name, NameQuestion, oracle);
    var (query, p2) := OrPrompt(p1, column.query, QueryQuestion, oracle);
    (Column(name, query), p2)
  }

  /** The page side of `addColumn`: the filled-in column is constructed after
      the ones already shown. */
  function Render(page: Page, column: Column, oracle: Oracle): (r: Page)
    ensures |r.rendered| == |page.rendered| + 1 && r.rendered[..|page.rendered|] == page.rendered
    ensures r.rendered[|page.rendered|] == FillIn(page, column, oracle).0
    ensures KeepsTruthy(r.rendered[|page.rendered|], column)
    ensures Complete(column) ==> r.rendered == page.rendered + [column]
    ensures r.prompts == page.prompts + Questions(column)
  {
    var (c, asked) := FillIn(page, column, oracle);
    assert (asked.rendered + [c])[..|page.rendered|] == page.rendered;
    asked.(rendered := asked.rendered + [c])
  }

  /** `saveData()`: overwrites the stored record with the whole current list. */
  function SaveData(app: App): (r: App)
    ensures Persisted(r) && r.columns == app.columns
    ensures Parse(r.store[DataKey]) == Success(Dashboard(app.columns))
    ensures r.store - {DataKey} == app.store - {DataKey}
    ensures r.(store := app.store) == app
  {
    StringifyRoundTrip(app.columns);
    app.(store := app.store[DataKey := Stringify(app.columns)])
  }

  /** `addColumn(column, saveNew)`: fills falsy fields from the user, builds the
      column on the page, appends it to the list only when `saveNew`, and saves
      the list either way. */
  function AddColumn(app: App, column: Column, saveNew: bool, oracle: Oracle): (r: App)
    ensures r.page == Render(app.page, column, oracle)
    ensures saveNew ==> r.columns == app.columns + [r.page.rendered[|app.page.rendered|]]
    ensures !saveNew ==> r.columns == app.columns
    ensures Persisted(r)
    ensures r.store == app.store[DataKey := Stringify(r.columns)]
    ensures SessionUnchanged(app, r)
  {
    var shown := app.(page := Render(app.page, column, oracle));
    var c := shown.page.rendered[|app.page.rendered|];
    SaveData(if saveNew then shown.(columns := shown.columns + [c]) else shown)
  }

  /** The page side of the `forEach` in `loadData`: every column is rendered in turn. */
  function RenderAll(page: Page, cs: seq<Column>, oracle: Oracle): (r: Page)
    ensures |r.rendered| == |page.rendered| + |cs| && r.rendered[..|page.rendered|] == page.rendered
    decreases |cs|
  {
    if |cs| == 0 then page
    else
      var p := Render(page, cs[0], oracle);
      var r := RenderAll(p, cs[1..], oracle);
      assert r.rendered[..|page.rendered|] == p.rendered[..|p.rendered|][..|page.rendered|];
      r
  }

  /** The `forEach` of `loadData`: re-adds every column with `saveNew = false`. */
  function Rehydrate(app: App, cs: seq<Column>, oracle: Oracle): (r: App)
    ensures r.page == RenderAll(app.page, cs, oracle)
    ensures r.columns == app.columns
    ensures |cs| == 0 ==> r.store == app.store
    ensures 0 < |cs| ==> r.store == app.store[DataKey := Stringify(app.columns)]
    ensures SessionUnchanged(app, r)
    decreases |cs|
  {
    if |cs| == 0 then app
    else Rehydrate(AddColumn(app, cs[0], false, oracle), cs[1..], oracle)
  }

  /** Rendering a list builds its columns in order, keeping every truthy field. */
  lemma {:induction false} RenderAllKeepsFields(page: Page, cs: seq<Column>, oracle: Oracle, i: nat)
    requires i < |cs|
    ensures KeepsTruthy(RenderAll(page, cs, oracle).rendered[|page.rendered| + i], cs[i])
    decreases i
  {
    var p := Render(page, cs[0], oracle);
    var r := RenderAll(p, cs[1..], oracle);
    if i == 0 {
      assert r.rendered[..|p.rendered|][|page.rendered|] == p.rendered[|page.rendered|];
    } else {
      RenderAllKeepsFields(p, cs[1..], oracle, i - 1);
      assert cs[1..][i - 1] == cs[i];
    }
  }

  /** The questions re-adding `cs` needs, column by column. */
  function AllQuestions(cs: seq<Column>): seq<string>
    decreases |cs|
  {
    if |cs| == 0 then [] else Questions(cs[0]) + AllQuestions(cs[1..])
  }

  /** Rendering a list asks exactly the questions its columns need, in list order. */
  lemma {:induction false} RenderAllAsks(page: Page, cs: seq<Column>, oracle: Oracle)
    ensures RenderAll(page, cs, oracle).prompts == page.prompts + AllQuestions(cs)
    decreases |cs|
  {
    if 0 < |cs| {
      var p := Render(page, cs[0], oracle);
      RenderAllAsks(p, cs[1..], oracle);
      assert page.prompts + Questions(cs[0]) + AllQuestions(cs[1..])
          == page.prompts + (Questions(cs[0]) + AllQuestions(cs[1..]));
    }
  }

  /** When every column is complete, rendering shows exactly those columns and
      asks the user nothing. */
  lemma {:induction false} RenderAllComplete(page: Page, cs: seq<Column>, oracle: Oracle)
    ensures (forall i :: 0 <= i < |cs| ==> Complete(cs[i])) ==>
              RenderAll(page, cs, oracle) == Page(page.rendered + cs, page.prompts)
    decreases |cs|
  {
    if 0 < |cs| && forall i :: 0 <= i < |cs| ==> Complete(cs[i]) {
      var p := Render(page, cs[0], oracle);
      assert Complete(cs[0]);
      assert forall i :: 0 <= i < |cs| - 1 ==> cs[1..][i] == cs[i + 1];
      RenderAllComplete(p, cs[1..], oracle);
      assert page.rendered + [cs[0]] + cs[1..] == page.rendered + cs;
    }
  }

  /** An exception escaping `loadData`: what `JSON.parse` threw and the state the
      page had reached when it did. The page lives on after the throw. */
  datatype Thrown = Thrown(state: App, error: ParseError)

  /** The state after a call that either returned or threw. */
  function Reached(r: Result<App, Thrown>): App {
    if r.Success? then r.value else r.error.state
  }

  /** What `localStorage.getItem` hands to `JSON.parse`: a missing record is
      `null`, which `JSON.parse` reads as the text "null". */
  function StoredText(store: map<string, string>): string {
    if DataKey in store then store[DataKey] else "null"
  }

  /** `loadData()`: parses the stored record; `null` leaves everything alone,
      otherwise the record replaces `DATA` and every column is rebuilt without
      being appended again. Unreadable text throws. */
  function LoadData(app: App, oracle: Oracle): (r: Result<App, Thrown>)
    ensures r.Failure? <==> Parse(StoredText(app.store)).Failure?
    ensures r.Failure? ==> r.error.state == app
    ensures DataKey !in app.store ==> r == Success(app)
    ensures Parse(StoredText(app.store)) == Success(NullRecord) ==> r == Success(app)
    ensures r.Success? && Parse(StoredText(app.store)).value.Dashboard? ==>
              var cs := Parse(StoredText(app.store)).value.columns;
              && r.value.columns == cs
              && Persisted(r.value)
              && r.value.page == RenderAll(app.page, cs, oracle)
              && |r.value.page.rendered| == |app.page.rendered| + |cs|
              && ((forall i :: 0 <= i < |cs| ==> Complete(cs[i])) ==>
                    r.value.page == Page(app.page.rendered + cs, app.page.prompts))
    ensures r.Success? ==> r.value.store - {DataKey} == app.store - {DataKey} && SessionUnchanged(app, r.value)
  {
    match Parse(StoredText(app.store))
    case Failure(e) => Failure(Thrown(app, e))
    case Success(NullRecord) => Success(app)
    case Success(Dashboard(cs)) =>
      ParseCanonical(StoredText(app.store));
      RenderAllComplete(app.page, cs, oracle);
      Success(Rehydrate(app.(columns := cs), cs, oracle))
  }

  /** `new TrelloDashboardApp()` on a page with the given hash, address and
      storage: listeners are attached and the stored list is loaded exactly when
      `authorized()` holds. An unreadable record makes the constructor throw after
      the token has been stored and the click handler attached. */
  function Construct(hash: string, href: string, store: map<string, string>, apiKey: string,
                     encode: string -> string, oracle: Oracle): (r: Result<App, Thrown>)
    ensures hash == "" && TokenKey !in store ==>
              && r.Success? && r.value.redirect.Some?
              && r.value.columns == [] && r.value.page == Page([], [])
              && !r.value.listening && r.value.store == store
    ensures hash != "" || TokenKey in store ==>
              && (r.Failure? <==> Parse(StoredText(store)).Failure?)
              && Reached(r).listening && Reached(r).redirect == None && TokenKey in Reached(r).store
    ensures hash == "" && TokenKey !in store ==>
              && Reached(r).redirect == Some(AuthorizeUrl(href, encode(AppName), apiKey))
              && Reached(r).token == Null && Reached(r).classToken == Null
    ensures Reached(r).hash == "" && Reached(r).href == href && Reached(r).apiKey == apiKey
    ensures hash != "" ==> Reached(r).hash == "" && Reached(r).store[TokenKey] == ExtractToken(hash)
    ensures hash != "" || TokenKey in store ==>
              && Reached(r).token == Str(if hash != "" then ExtractToken(hash) else store[TokenKey])
              && Reached(r).classToken == Reached(r).token
    ensures hash == "" && TokenKey in store ==> Reached(r).store[TokenKey] == store[TokenKey]
    ensures (hash != "" || TokenKey in store) && Parse(StoredText(store)) == Success(NullRecord) ==>
              r.Success? && r.value.columns == [] && r.value.page == Page([], [])
    ensures (hash != "" || TokenKey in store) && Parse(StoredText(store)).Success?
            && Parse(StoredText(store)).value.Dashboard? ==>
              var cs := Parse(StoredText(store)).value.columns;
              && r.Success? && r.value.columns == cs && Persisted(r.value)
              && r.value.page == RenderAll(Page([], []), cs, oracle)
    ensures r.Failure? ==>
              && r.error.state.columns == [] && r.error.state.page == Page([], [])
              && StoredText(r.error.state.store) == StoredText(store)
  {
    var (a, ok) := Authorized(Initial(hash, href, store, apiKey), encode);
    assert StoredText(a.store) == StoredText(store) by {
      assert TokenKey != DataKey by { assert |TokenKey| != |DataKey|; }
    }
    if ok then LoadData(a.(listening := true), oracle) else Success(a)
  }

  // ------------------------------------------------------------------ lemmas

  /** Saving and then loading gives back the same list and leaves the store as saved. */
  lemma SaveThenLoad(app: App, oracle: Oracle)
    ensures var saved := SaveData(app);
            LoadData(saved, oracle).Success?
            && LoadData(saved, oracle).value.columns == app.columns
            && LoadData(saved, oracle).value.store == saved.store
  {
  }

  /** Loading from a store that agrees with the list changes neither. */
  lemma LoadPersistedIsStable(app: App, oracle: Oracle)
    requires Persisted(app)
    ensures LoadData(app, oracle).Success?
    ensures LoadData(app, oracle).value.columns == app.columns
    ensures LoadData(app, oracle).value.store == app.store
  {
    StringifyRoundTrip(app.columns);
  }

  /** Running `loadData` twice in a row: the second run changes neither `DATA`
      nor the store. */
  lemma LoadDataTwice(app: App, oracle: Oracle)
    requires LoadData(app, oracle).Success?
    ensures var once := LoadData(app, oracle).value;
            LoadData(once, oracle).Success?
            && LoadData(once, oracle).value.columns == once.columns
            && LoadData(once, oracle).value.store == once.store
  {
    var once := LoadData(app, oracle).value;
    var doc := Parse(StoredText(app.store)).value;
    if doc.Dashboard? {
      LoadPersistedIsStable(once, oracle);
    } else {
      assert once == app;
    }
  }

  /** A column added by the user survives a reload, after the earlier ones. */
  lemma AddedColumnSurvivesReload(app: App, column: Column, oracle: Oracle, later: Oracle)
    ensures var a := AddColumn(app, column, true, oracle);
            LoadData(a, later).Success?
            && LoadData(a, later).value.columns == app.columns + [a.page.rendered[|app.page.rendered|]]
  {
    LoadPersistedIsStable(AddColumn(app, column, true, oracle), later);
  }

  /** A start that throws on an unreadable record still leaves the click handler
      attached, and the first column the user adds replaces the unreadable record
      with a readable one holding just that column. */
  lemma ClickAfterFailedStartRepairs(hash: string, href: string, store: map<string, string>, apiKey: string,
                                     encode: string -> string, oracle: Oracle, column: Column, later: Oracle)
    requires Construct(hash, href, store, apiKey, encode, oracle).Failure?
    ensures var s := Construct(hash, href, store, apiKey, encode, oracle).error.state;
            var a := AddColumn(s, column, true, later);
            && Parse(StoredText(store)).Failure?
            && s.listening
            && Parse(StoredText(a.store)) == Success(Dashboard([a.page.rendered[0]]))
  {
    var s := Construct(hash, href, store, apiKey, encode, oracle).error.state;
    var a := AddColumn(s, column, true, later);
    assert a.columns == [a.page.rendered[0]];
    StringifyRoundTrip(a.columns);
  }

  /** Reloading the page after a successful start (no hash this time) finds the
      same token and the same columns, and writes nothing new. */
  lemma ReloadIsStable(hash: string, href: string, store: map<string, string>, apiKey: string,
                       encode: string -> string, oracle: Oracle, later: Oracle)
    requires hash != "" || TokenKey in store
    requires Construct(hash, href, store, apiKey, encode, oracle).Success?
    ensures var first := Construct(hash, href, store, apiKey, encode, oracle).value;
            var again := Construct("", href, first.store, apiKey, encode, later);
            again.Success? && again.value.columns == first.columns && again.value.store == first.store
  {
    var (a, ok) := Authorized(Initial(hash, href, store, apiKey), encode);
    var first := LoadData(a.(listening := true), oracle).value;
    var (b, ok2) := Authorized(Initial("", href, first.store, apiKey), encode);
    assert ok2 && b.store == first.store;
    var doc := Parse(StoredText(a.store)).value;
    if doc.Dashboard? {
      assert Persisted(first);
      LoadPersistedIsStable(b.(listening := true, columns := first.columns), later);
      assert b.(listening := true, columns := first.columns).store == b.store;
    } else {
      assert first.columns == [];
      assert StoredText(first.store) == StoredText(a.store);
    }
  }

  /** One stored complete column is rebuilt as is, asking nothing. */
  lemma ExampleRehydration(app: App, oracle: Oracle)
    requires app.store == map[DataKey := Stringify([Column(Some("Bugs"), Some("label:bug"))])]
    requires app.page == Page([], [])
    ensures LoadData(app, oracle).Success?
    ensures LoadData(app, oracle).value.page == Page([Column(Some("Bugs"), Some("label:bug"))], [])
  {
    var cs := [Column(Some("Bugs"), Some("label:bug"))];
    var start := app.(columns := cs);
    assert Complete(cs[0]);
    RenderAllComplete(app.page, cs, oracle);
    assert LoadData(app, oracle) == Success(Rehydrate(start, cs, oracle)) by {
      assert StoredText(app.store) == Stringify(cs);
      StringifyRoundTrip(cs);
    }
  }
}

=== FILE: json.dfy ===
/** The persisted form of the column list: the text `JSON.stringify` writes for
    `{columns: [...]}` and the `JSON.parse` that reads it back, restricted to the
    shapes the dashboard itself produces. */
module Json {
  import opened Wrappers
  import opened Columns

  /** What `JSON.parse` yields for a stored record: `null`, or the dashboard object. */
  datatype Document = NullRecord | Dashboard(columns: seq<Column>)

  /** `JSON.parse` throws a SyntaxError on text it cannot read. */
  datatype ParseError = SyntaxError

  // ---------------------------------------------------------------- stringify

  function EscapeChar(c: char): string {
    if c == '"' || c == '\\' then ['\\', c] else [c]
  }

  /** The body of a JSON string literal for `s`. */
  function Escape(s: string): string {
    if |s| == 0 then "" else EscapeChar(s[0]) + Escape(s[1..])
  }

  function ValueText(v: JsString): string {
    match v
    case None => "null"
    case Some(s) => "\"" + Escape(s) + "\""
  }

  const NameKey := "{\"name\":"
  const QueryKey := ",\"query\":"
  const DocumentOpen := "{\"columns\":["

  function ColumnText(c: Column): string {
    NameKey + ValueText(c.name) + QueryKey + ValueText(c.query) + "}"
  }

  /** The comma-separated column objects of a non-empty or empty list. */
  function ItemsText(cs: seq<Column>): string {
    if |cs| == 0 then ""
    else if |cs| == 1 then ColumnText(cs[0])
    else ColumnText(cs[0]) + "," + ItemsText(cs[1..])
  }

  /** `JSON.stringify(TrelloDashboardApp.DATA)`. */
  function Stringify(cs: seq<Column>): string {
    DocumentOpen + ItemsText(cs) + "]" + "}"
  }

  // -------------------------------------------------------------------- parse

  /** The rest of `s` after the literal `lit`, if `s` starts with it. */
  function Literal(s: string, lit: string): (r: Option<string>)
    ensures r.Some? <==> lit <= s
    ensures r.Some? ==> s == lit + r.value
  {
    if lit <= s then Some(s[|lit|..]) else None
  }

  /** Reads the body of a string literal up to and including its closing quote. */
  function ParseStringBody(s: string): (r: Option<(string, string)>)
    ensures r.Some? ==> |r.value.1| < |s|
  {
    if |s| == 0 then None
    else if s[0] == '"' then Some(("", s[1..]))
    else if s[0] == '\\' then
      if 2 <= |s| && (s[1] == '"' || s[1] == '\\') then
        var p :- ParseStringBody(s[2..]);
        Some(([s[1]] + p.0, p.1))
      else None
    else
      var p :- ParseStringBody(s[1..]);
      Some(([s[0]] + p.0, p.1))
  }

  /** Reads `null` or a string literal. */
  function ParseValue(s: string): (r: Option<(JsString, string)>)
    ensures r.Some? ==> |r.value.1| < |s|
  {
    match Literal(s, "null")
    case Some(rest) => Some((None, rest))
    case None =>
      var body :- Literal(s, "\"");
      var p :- ParseStringBody(body);
      Some((Some(p.0), p.1))
  }

  function ParseColumn(s: string): (r: Option<(Column, string)>)
    ensures r.Some? ==> |r.value.1| < |s|
  {
    var s1 :- Literal(s, NameKey);
    var name :- ParseValue(s1);
    var s2 :- Literal(name.1, QueryKey);
    var query :- ParseValue(s2);
    var s3 :- Literal(query.1, "}");
    Some((Column(name.0, query.0), s3))
  }

  /** Reads one or more column objects separated by commas and closed by `]`. */
  function ParseItems(s: string): (r: Option<(seq<Column>, string)>)
    ensures r.Some? ==> |r.value.1| < |s|
    decreases |s|
  {
    var c :- ParseColumn(s);
    var rest := c.1;
    if 0 < |rest| && rest[0] == ']' then Some(([c.0], rest[1..]))
    else if 0 < |rest| && rest[0] == ',' then
      var cs :- ParseItems(rest[1..]);
      Some(([c.0] + cs.0, cs.1))
    else None
  }

  /** Reads a possibly empty list of column objects closed by `]`. */
  function ParseList(s: string): (r: Option<(seq<Column>, string)>)
  {
    if 0 < |s| && s[0] == ']' then Some(([], s[1..])) else ParseItems(s)
  }

  /** `JSON.parse(text)` for the texts the dashboard stores. */
  function Parse(text: string): (r: Result<Document, ParseError>)
  {
    if text == "null" then Success(NullRecord)
    else
      match Literal(text, DocumentOpen)
      case None => Failure(SyntaxError)
      case Some(s1) =>
        match ParseList(s1)
        case None => Failure(SyntaxError)
        case Some((cs, s2)) =>
          if s2 == "}" then Success(Dashboard(cs)) else Failure(SyntaxError)
  }

  // --------------------------------------------------------------- round trip

  lemma {:induction false} StringBodyRoundTrip(t: string, rest: string)
    ensures ParseStringBody(Escape(t) + "\"" + rest) == Some((t, rest))
  {
    if |t| == 0 {
      assert Escape(t) + "\"" + rest == "\"" + rest;
    } else {
      var s := Escape(t) + "\"" + rest;
      var tail := Escape(t[1..]) + "\"" + rest;
      StringBodyRoundTrip(t[1..], rest);
      assert s == EscapeChar(t[0]) + tail;
      assert [t[0]] + t[1..] == t;
      if t[0] == '"' || t[0] == '\\' {
        assert s[2..] == tail;
      } else {
        assert s[1..] == tail;
      }
    }
  }

  lemma ValueRoundTrip(v: JsString, rest: string)
    ensures ParseValue(ValueText(v) + rest) == Some((v, rest))
  {
    match v
    case None =>
      LiteralPrefix("null", rest);
    case Some(t) =>
      var body := Escape(t) + "\"" + rest;
      QuoteRegroup(Escape(t), rest);
      NotNull(body);
      LiteralPrefix("\"", body);
      StringBodyRoundTrip(t, rest);
  }

  /** A quoted value never starts with `null`. */
  lemma NotNull(body: string)
    ensures Literal("\"" + body, "null") == None
  {
    assert ("\"" + body)[0] == '"';
  }

  lemma QuoteRegroup(x: string, rest: string)
    ensures "\"" + x + "\"" + rest == "\"" + (x + "\"" + rest)
  {
  }

  lemma LiteralPrefix(lit: string, x: string)
    ensures Literal(lit + x, lit) == Some(x)
  {
    assert lit <= lit + x;
    assert (lit + x)[|lit|..] == x;
  }

  lemma ColumnRoundTrip(c: Column, rest: string)
    ensures ParseColumn(ColumnText(c) + rest) == Some((c, rest))
  {
    var afterQuery := ValueText(c.query) + ("}" + rest);
    var afterName := ValueText(c.name) + (QueryKey + afterQuery);
    RegroupColumn(NameKey, ValueText(c.name), QueryKey, ValueText(c.query), "}", rest);
    LiteralPrefix(NameKey, afterName);
    ValueRoundTrip(c.name, QueryKey + afterQuery);
    LiteralPrefix(QueryKey, afterQuery);
    ValueRoundTrip(c.query, "}" + rest);
    LiteralPrefix("}", rest);
  }

  /** One step of `ParseItems`: a column followed by `]` or by `,` and more items. */
  lemma ParseItemsStep(c: Column, sep: char, tail: string)
    ensures sep == ']' ==> ParseItems(ColumnText(c) + ([sep] + tail)) == Some(([c], tail))
    ensures sep == ',' ==>
              ParseItems(ColumnText(c) + ([sep] + tail)) ==
                (match ParseItems(tail)
                 case None => None
                 case Some(p) => Some(([c] + p.0, p.1)))
  {
    ColumnRoundTrip(c, [sep] + tail);
    assert ([sep] + tail)[1..] == tail;
  }

  lemma ItemsTextCons(cs: seq<Column>)
    requires 1 < |cs|
    ensures ItemsText(cs) == ColumnText(cs[0]) + "," + ItemsText(cs[1..])
  {
  }

  lemma Regroup(x: string, sep: string, y: string, rest: string)
    ensures x + sep + y + "]" + rest == x + (sep + (y + "]" + rest))
  {
  }

  /** The step of `ItemsRoundTrip` for two or more columns. */
  lemma {:induction false} ItemsRoundTripMany(cs: seq<Column>, rest: string)
    requires 1 < |cs|
    ensures ParseItems(ItemsText(cs) + "]" + rest) == Some((cs, rest))
    decreases |cs|, 0
  {
    ItemsRoundTrip(cs[1..], rest);
    ItemsTextCons(cs);
    Regroup(ColumnText(cs[0]), ",", ItemsText(cs[1..]), rest);
    ParseItemsStep(cs[0], ',', ItemsText(cs[1..]) + "]" + rest);
    assert [cs[0]] + cs[1..] == cs;
  }

  lemma {:induction false} ItemsRoundTrip(cs: seq<Column>, rest: string)
    requires 0 < |cs|
    ensures ParseItems(ItemsText(cs) + "]" + rest) == Some((cs, rest))
    decreases |cs|, 1
  {
    if |cs| == 1 {
      assert ItemsText(cs) + "]" + rest == ColumnText(cs[0]) + ("]" + rest);
      ParseItemsStep(cs[0], ']', rest);
      assert [cs[0]] == cs;
    } else {
      ItemsRoundTripMany(cs, rest);
    }
  }

  lemma ItemsTextStart(cs: seq<Column>)
    requires 0 < |cs|
    ensures 0 < |ItemsText(cs)| && ItemsText(cs)[0] == '{'
  {
    var c := ColumnText(cs[0]);
    assert c[0] == '{';
    if 1 < |cs| {
      ItemsTextCons(cs);
      assert (c + "," + ItemsText(cs[1..]))[0] == c[0];
    }
  }

  /** The list part of a serialised record reads back as the list, leaving the closing brace. */
  lemma ListRoundTrip(cs: seq<Column>)
    ensures ParseList(ItemsText(cs) + "]" + "}") == Some((cs, "}"))
  {
    var body := ItemsText(cs) + "]" + "}";
    if |cs| == 0 {
      assert body == "]}";
    } else {
      ItemsRoundTrip(cs, "}");
      ItemsTextStart(cs);
      assert body[0] == ItemsText(cs)[0];
    }
  }

  lemma Regroup4(a: string, b: string, c: string, d: string)
    ensures a + b + c + d == a + (b + c + d)
  {
  }

  /** Whatever list is saved, parsing the saved text gives that list back. */
  lemma StringifyRoundTrip(cs: seq<Column>)
    ensures Parse(Stringify(cs)) == Success(Dashboard(cs))
  {
    var body := ItemsText(cs) + "]" + "}";
    Regroup4(DocumentOpen, ItemsText(cs), "]", "}");
    LiteralPrefix(DocumentOpen, body);
    assert Stringify(cs)[0] == DocumentOpen[0];
    ListRoundTrip(cs);
  }

  /** Different lists are saved as different texts. */
  lemma StringifyInjective(cs: seq<Column>, ds: seq<Column>)
    requires Stringify(cs) == Stringify(ds)
    ensures cs == ds
  {
    StringifyRoundTrip(cs);
    StringifyRoundTrip(ds);
  }

  // ------------------------------------------------------ canonical parsing

  lemma EscapeCons(c: char, t: string)
    ensures Escape([c] + t) == EscapeChar(c) + Escape(t)
  {
    assert ([c] + t)[0] == c;
    assert ([c] + t)[1..] == t;
  }

  lemma {:induction false} StringBodyCanonical(s: string)
    requires ParseStringBody(s).Some?
    ensures s == Escape(ParseStringBody(s).value.0) + "\"" + ParseStringBody(s).value.1
    decreases |s|
  {
    var p := ParseStringBody(s).value;
    if s[0] == '"' {
      assert p == ("", s[1..]);
      assert s == [s[0]] + s[1..];
    } else if s[0] == '\\' {
      StringBodyCanonical(s[2..]);
      var q := ParseStringBody(s[2..]).value;
      assert p == ([s[1]] + q.0, q.1);
      EscapeCons(s[1], q.0);
      assert s == [s[0], s[1]] + s[2..];
    } else {
      StringBodyCanonical(s[1..]);
      var q := ParseStringBody(s[1..]).value;
      assert p == ([s[0]] + q.0, q.1);
      EscapeCons(s[0], q.0);
      assert s == [s[0]] + s[1..];
    }
  }

  lemma ValueCanonical(s: string)
    requires ParseValue(s).Some?
    ensures s == ValueText(ParseValue(s).value.0) + ParseValue(s).value.1
  {
    if Literal(s, "null").None? {
      var body := Literal(s, "\"").value;
      StringBodyCanonical(body);
      var p := ParseStringBody(body).value;
      QuoteRegroup(Escape(p.0), p.1);
    }
  }

  lemma RegroupColumn(a: string, b: string, c: string, d: string, e: string, f: string)
    ensures a + (b + (c + (d + (e + f)))) == a + b + c + d + e + f
  {
  }

  lemma ColumnCanonical(s: string)
    requires ParseColumn(s).Some?
    ensures s == ColumnText(ParseColumn(s).value.0) + ParseColumn(s).value.1
  {
    var s1 := Literal(s, NameKey).value;
    ValueCanonical(s1);
    var name := ParseValue(s1).value;
    var s2 := Literal(name.1, QueryKey).value;
    ValueCanonical(s2);
    var query := ParseValue(s2).value;
    var s3 := Literal(query.1, "}").value;
    assert ParseColumn(s).value == (Column(name.0, query.0), s3);
    assert s == NameKey + (ValueText(name.0) + (QueryKey + (ValueText(query.0) + ("}" + s3))));
    RegroupColumn(NameKey, ValueText(name.0), QueryKey, ValueText(query.0), "}", s3);
  }

  lemma {:induction false} ItemsCanonical(s: string)
    requires ParseItems(s).Some?
    ensures 0 < |ParseItems(s).value.0|
    ensures s == ItemsText(ParseItems(s).value.0) + "]" + ParseItems(s).value.1
    decreases |s|
  {
    ColumnCanonical(s);
    var c := ParseColumn(s).value;
    var rest := c.1;
    if rest[0] == ']' {
      assert ParseItems(s).value == ([c.0], rest[1..]);
      assert rest == "]" + rest[1..];
    } else {
      ItemsCanonical(rest[1..]);
      var cs := ParseItems(rest[1..]).value;
      var all := [c.0] + cs.0;
      assert ParseItems(s).value == (all, cs.1);
      assert all[0] == c.0 && all[1..] == cs.0;
      ItemsTextCons(all);
      assert rest == "," + rest[1..];
      Regroup(ColumnText(c.0), ",", ItemsText(cs.0), cs.1);
    }
  }

  /** The parser accepts a dashboard record only in the exact form `Stringify` writes. */
  lemma ParseCanonical(text: string)
    requires Parse(text).Success? && Parse(text).value.Dashboard?
    ensures text == Stringify(Parse(text).value.columns)
  {
    var s1 := Literal(text, DocumentOpen).value;
    var cs := ParseList(s1).value;
    if 0 < |s1| && s1[0] == ']' {
      assert s1 == "]" + "}";
      assert ItemsText(cs.0) == "";
    } else {
      ItemsCanonical(s1);
      assert s1 == ItemsText(cs.0) + "]" + "}";
    }
  }

  /** Only the text `null` is read as a missing record; any other text is either a
      dashboard record or a syntax error. */
  lemma ParseNull(text: string)
    ensures Parse(text) == Success(NullRecord) <==> text == "null"
    ensures Parse(text).Failure? || Parse(text) == Success(NullRecord) || Parse(text).value.Dashboard?
  {
  }

  /** `Stringify` and `Parse` are inverse on dashboard records, in both directions. */
  lemma ParseIffStringify(text: string, cs: seq<Column>)
    ensures Parse(text) == Success(Dashboard(cs)) <==> text == Stringify(cs)
  {
    if Parse(text) == Success(Dashboard(cs)) {
      ParseCanonical(text);
    }
    if text == Stringify(cs) {
      StringifyRoundTrip(cs);
    }
  }
}

=== FILE: text.dfy ===
/** String helpers with the semantics of the JavaScript string methods the dashboard uses. */
module Text {

  /** `s.indexOf(c)`: the position of the first `c` in `s`, or -1 when there is none. */
  function IndexOf(s: string, c: char): (i: int)
    ensures -1 <= i < |s|
    ensures i == -1 <==> c !in s
    ensures 0 <= i ==> s[i] == c && c !in s[..i]
  {
    if |s| == 0 then -1
    else if s[0] == c then 0
    else
      var j := IndexOf(s[1..], c);
      if j == -1 then -1
      else
        assert s[..j + 1] == [s[0]] + s[1..][..j];
        j + 1
  }

  /** The first `c` of `p + [c] + t` is the one right after `p` when `p` has none. */
  lemma IndexOfAfterPrefix(p: string, c: char, t: string)
    requires c !in p
    ensures IndexOf(p + [c] + t, c) == |p|
  {
    var s := p + [c] + t;
    assert s[|p|] == c;
    assert s[..|p|] == p;
  }

  /** `s` ends with `suffix`. */
  predicate EndsWith(s: string, suffix: string) {
    |suffix| <= |s| && s[|s| - |suffix|..] == suffix
  }
}

=== FILE: wrappers.dfy ===
/** Failure-compatible wrappers used throughout the model. */
module Wrappers {

  /** A value that may be absent; usable with `:-`. */
  datatype Option<+T> = None | Some(value: T) {

    predicate IsFailure() {
      None?
    }

    function PropagateFailure<U>(): Option<U>
      requires None?
    {
      None
    }

    function Extract(): T
      requires Some?
    {
      value
    }
  }

  /** The outcome of an operation that can throw. */
  datatype Result<+T, +E> = Success(value: T) | Failure(error: E)
}
